=== FILE: README.md ===
# xruler overlay engine, modelled in Dafny

xruler tracks the pointer on an X11 screen. It keeps a few
override-redirect overlay windows positioned around the cursor. It has two
modes:

- **hide** mode covers a band above and a band below a gap around the
  cursor with opaque windows (light grey by default). Two thin border strips mark the edges of the gap.
- **ruler** mode shows one translucent band centred on the cursor.

A poll loop samples the cursor about every 16 ms and repositions the
windows when the cursor's y changes. A Ctrl+Shift+Space hotkey toggles
visibility. Every pointer movement while visible draws a short red trail
segment, and each segment expires two seconds after it was drawn.

This project models the integer logic of that engine:

- the geometry of both modes;
- window-set creation and its error path;
- the trail segment list: the movement test, the padded bounding box,
  appending a segment and the expiry filter;
- one poll-loop iteration and the visibility toggle;
- the initialisation sequence;
- the command-line mode selector.

Everything the engine asks of the display server becomes data. A
rectangle is requested or "not reconfigured" (`None`). Window allocations
are answered by a parameter `server: nat -> Alloc` (granted, or an error
from identifier generation or from creation). Every other fallible request
is an `Option<XError>` input. The cursor position, the screen size and the
clock (integer nanoseconds, `now`) are inputs too.

Modules: `Base` (option/result, Go's `min`/`max`, Go's truncating `/2`),
`Windows` (rectangles, windows, ordered creation and per-window request
loops that stop at the first error), `HideMode`, `RulerMode`, `Modes`
(the closed `Hide | Ruler` union), `Segments` (trail logic shared by
`internal/trail/trail.go` and the copy in `internal/ruler/ruler.go`),
`Trail` (the trail manager), `Engine` (the `Ruler` struct, the loop step,
the toggle), `Startup` (`Init`) and `Cli`.

Behaviour worth noting:

- With a 200-pixel band and a 50-pixel gap at y = 540, the top band is
  [315, 515) and the bottom band [565, 765). See `HideMode.LayoutScenario`.
- Making the overlay visible again does not force a geometry update. The
  loop keeps tracking `lastY` while hidden, so the windows keep their old
  geometry until the cursor's y changes. See
  `Engine.ReshowAtSameHeightKeepsGeometry`.
- Trails fade and then expire in `ruler.go`, and only expire in `trail.go`.
  Both use the same rule: a segment goes once it is more than two seconds
  old, so one exactly two seconds old stays.

## Model

| member | source | states |
|---|---|---|
| Base.Half | internal/ruler/hide_mode.go:123-124 | `n/2` truncates toward zero: the remainder has the sign of `n` and magnitude at most 1 |
| Base.HalfCommutesWithNegation | internal/ruler/hide_mode.go:123-124 | halving is symmetric about zero (Half(-3) is -1, not -2), unlike a floor division |
| Windows.CreateAll | internal/ruler/hide_mode.go:38-114 | windows are allocated in order. The set is returned, all mapped, iff every allocation is granted. Otherwise the error of the first refused allocation is returned, and every earlier allocation was granted |
| Windows.ApplyEach | internal/ruler/ruler.go:224-229 | a per-window request loop succeeds iff no request is refused. Otherwise it stops at the first refused window with its error: earlier windows are changed and later ones are not |
| HideMode.Layout | internal/ruler/hide_mode.go:123-132 | the top band exists iff cursorTop > 0 and hideHeight > 0. It starts at y >= 0, ends exactly at cursorTop and is min(cursorTop, hideHeight) tall. The bottom band exists iff cursorBottom < screenHeight and hideHeight > 0. It starts at cursorBottom, ends on screen and is min(screenHeight - cursorBottom, hideHeight) tall. The borders are borderHeight tall, at cursorTop and at cursorBottom - borderHeight. Everything is full width at x = 0 |
| HideMode.UpdateWindows | internal/ruler/hide_mode.go:117-163 | only rectangles change. A band with no height keeps its previous rectangle. The borders are always reconfigured. Windows past the fourth are untouched |
| HideMode.BandsAvoidCursorGap | internal/ruler/hide_mode.go:123-132 | no row of the cursor gap [cursorTop, cursorBottom) lies in either band |
| HideMode.UpdateIsIdempotent | internal/ruler/hide_mode.go:134-160 | a second update with the same cursor y changes nothing |
| HideMode.FullUpdateForgetsHistory | internal/ruler/hide_mode.go:134-160 | when both bands have room, the four resulting rectangles do not depend on the previous ones |
| HideMode.TopBandFrozenAtScreenTop | internal/ruler/hide_mode.go:126-139 | with the cursor within half a gap of the screen top, the top band window is left exactly as it was |
| HideMode.LayoutScenario | internal/ruler/hide_mode.go:123-132 | hideHeight 200, gap 50, y 540, 1920x1080: top band [315, 515), bottom band [565, 765) |
| HideMode.BottomBandClipped | internal/ruler/hide_mode.go:130-160 | with the defaults near the screen bottom, the bottom band is clipped to [1040, 1080), and it vanishes (not reconfigured) once the gap reaches the bottom |
| HideMode.DefaultHideModeConfig | internal/ruler/hide_mode.go:20-30 | the hide-mode defaults: 400-pixel bands, an 80-pixel gap, 2-pixel borders, overlay 0xf0f0f0, border 0x000000, opacity 100% |
| HideMode.DefaultLayoutMidScreen | internal/ruler/hide_mode.go:21-30 | the defaults are hideHeight 400, cursorHeight 80, borderHeight 2. At y 540 on 1920x1080 they give bands [100, 500) and [580, 980), with borders at 500 and 578 |
| HideMode.CreateWindows | internal/ruler/hide_mode.go:38-114 | success iff the four allocations are granted. It yields four mapped windows at the origin, full width, in the order overlay (1 px), border, border, overlay (1 px). The borders are borderHeight tall and the colours are as configured. Otherwise the first refused allocation's error is returned |
| RulerMode.Band | internal/ruler/ruler_mode.go:57-64 | the band is full width at x = 0 and rulerHeight tall, with y + rulerHeight/2 == cursorY exactly |
| RulerMode.UpdateWindows | internal/ruler/ruler_mode.go:57-67 | only the first window's rectangle changes, and it becomes the centred band |
| RulerMode.BandCoversCursor | internal/ruler/ruler_mode.go:59-64 | a band of positive height contains the cursor row. With an even height the cursor is exactly in the middle |
| RulerMode.BandNotClamped | internal/ruler/ruler_mode.go:57-64 | with cursorY < rulerHeight/2 the band's y is negative: no clamping |
| RulerMode.UpdateIgnoresScreenHeight | internal/ruler/ruler_mode.go:57-64 | the screen height has no influence on the update |
| RulerMode.UpdateIsIdempotent | internal/ruler/ruler_mode.go:57-67 | a second update with the same cursor y changes nothing |
| RulerMode.DefaultRulerModeConfig | internal/ruler/ruler_mode.go:17-24 | the ruler-mode defaults: a 40-pixel band, colour 0x808080, opacity 94% |
| RulerMode.DefaultBandAt100 | internal/ruler/ruler_mode.go:18-24 | the default 40-pixel ruler at y 100 spans 80 to 120 |
| RulerMode.CreateWindows | internal/ruler/ruler_mode.go:32-54 | success iff the one allocation is granted. It yields exactly one mapped window at (0, 0), screenWidth by rulerHeight, in the ruler colour. Otherwise it returns that allocation's error |
| Modes.GetOpacity | internal/ruler/hide_mode.go:32-35 | a mode's opacity is its configuration's opacity percentage, for hide and ruler mode alike |
| Modes.CreateWindows | internal/ruler/mode.go:18-25 | a mode's window set is all of its windows (4 or 1), mapped, or an error |
| Modes.UpdateWindows | internal/ruler/mode.go:18-25 | for either mode an update changes only window rectangles |
| Modes.UpdateIsIdempotent | internal/ruler/mode.go:18-25 | for either mode, repeating an update with the same cursor y is a no-op |
| Segments.FarEnough | internal/ruler/ruler.go:284-292 | the movement test is false whenever the previous point is the -1 sentinel |
| Segments.UnitThresholdMeansMoved | internal/trail/trail.go:52-60 | with a one-pixel minimum distance the squared-distance test holds iff there is a previous point and the new point differs from it |
| Segments.BoundingBox | internal/trail/trail.go:68-74 | the box starts at min(x1,x2) - 5 and min(y1,y2) - 5, and is |x2-x1| + 10 by |y2-y1| + 10. Both endpoints lie in [5, width - 5] by [5, height - 5] |
| Segments.AddSegment | internal/trail/trail.go:63-188 | without a connection, or when the window is refused, the list is unchanged. Otherwise exactly one segment is appended at the end: the given endpoints, stamped now, a mapped click-through window over the padded box |
| Segments.Expire | internal/trail/trail.go:205-227 | the survivors are exactly the input segments with now - timestamp <= duration |
| Segments.ExpireAppend | internal/trail/trail.go:208-225 | expiry distributes over concatenation, so survivors keep their relative order |
| Segments.ExpireKeepsAlive | internal/trail/trail.go:210-222 | a list of live segments passes through unchanged |
| Segments.ExpireIsIdempotent | internal/trail/trail.go:205-227 | expiring twice at the same instant equals expiring once |
| Segments.ExpireLater | internal/trail/trail.go:205-227 | expiring at an earlier and then a later instant equals expiring once at the later instant |
| Segments.SegmentLifetime | internal/trail/trail.go:210-222 | a segment stamped t survives an update at now iff now <= t + duration |
| Segments.ExpireAfterAppendNow | internal/ruler/ruler.go:88-97 | a segment appended at now survives the update at now, after the old list's survivors |
| Trail.NewManager | internal/trail/trail.go:42-49 | a new manager holds the given connections, has no segments, and its last position is the (-1, -1) sentinel, so ShouldAdd is false for every point until a position is recorded |
| Trail.ShouldAdd | internal/trail/trail.go:52-60 | true iff a last position is recorded (neither coordinate -1) and the new point differs from it. The test does not modify the manager |
| Trail.Add | internal/trail/trail.go:63-188 | unless both connections are present and the window is granted, the manager is unchanged. Otherwise exactly one segment is appended at the end with the padded box. The last position never changes |
| Trail.Update | internal/trail/trail.go:205-227 | the segments become exactly the survivors of the shared expiry filter, in their original order, with nothing added: a segment stays iff its age is <= two seconds. The connections and the last position are untouched |
| Trail.UpdatePosition | internal/trail/trail.go:230-233 | recording (x, y) sets the last position to (x, y) and leaves the connections and the segment list as they were |
| Trail.GetLastPosition | internal/trail/trail.go:235-238 | the last recorded position, (-1, -1) before any |
| Trail.PositionRoundTrip | internal/trail/trail.go:230-238 | reading the last position after recording (x, y) gives (x, y), and the segment list is unchanged |
| Trail.RecordedPositionEnablesTrail | internal/trail/trail.go:52-60 | after recording a real position, staying put draws nothing and any move draws a segment |
| Trail.SampleKeepsTrailFresh | internal/trail/trail.go:204-238 | after test, draw, record and update, the last position is the new sample and no segment is older than two seconds |
| Engine.New | internal/ruler/ruler.go:54-59 | a new engine stores the mode and is visible, with no connection, windows or trails |
| Engine.ToggleVisibility | internal/ruler/ruler.go:166-180 | visibility is negated, and every window is mapped iff the new value is true. Nothing else changes |
| Engine.ToggleTwice | internal/ruler/ruler.go:166-180 | when the map state matches visibility, toggling twice restores the engine exactly |
| Engine.ShouldAddTrailSegment | internal/ruler/ruler.go:284-292 | true iff the previous sample is not the sentinel and the new point differs from it |
| Engine.AddTrailSegment | internal/ruler/ruler.go:295-420 | only the trail list changes. It is unchanged without a connection or a window. Otherwise one drawn segment is appended at the end |
| Engine.UpdateTrails | internal/ruler/ruler.go:437-487 | if the atom lookup fails the list is untouched. Otherwise the list becomes exactly the survivors of the shared expiry filter, in their original order, with nothing added: the segments older than two seconds are dropped, and nothing else changes |
| Engine.Step | internal/ruler/ruler.go:69-100 | the loop state becomes (cy, cx, cy) even while hidden. The mode update fires iff cy != lastY and the engine is visible; otherwise the windows are untouched. A trail segment is requested iff visible, the previous sample is not the sentinel, and the point moved. Mode, visibility, connection and screen are unchanged |
| Engine.FirstStepReconfigures | internal/ruler/ruler.go:70-85 | from the initial -1 sentinels, the first sample at any cy >= 0 reconfigures a visible engine and draws no trail |
| Engine.StepTrails | internal/ruler/ruler.go:87-97 | after a step, the trails are the kept part of the old list followed by the new segment when one was requested and granted. The kept part is the survivors of the expiry filter when the atom lookup succeeds, and the whole old list when it fails, since the update then returns before filtering |
| Engine.ReshowAtSameHeightKeepsGeometry | internal/ruler/ruler.go:80-85 | hide, step, show, then step at the same y: no update is issued and the window rectangles are those from before hiding |
| Engine.Replay | internal/ruler/ruler.go:69-100 | any sequence of ticks and hotkeys keeps the engine ready and leaves mode, connection and screen unchanged |
| Engine.ReplayKeepsMappingInSync | internal/ruler/ruler.go:166-180 | under any interleaving of ticks and hotkeys, windows stay mapped exactly when visible and keep their colours and count |
| Engine.TickKeepsTrailsFresh | internal/ruler/ruler.go:97-97 | after a tick whose trail update ran, no trail is older than two seconds |
| Startup.SetupClickThrough | internal/ruler/ruler.go:200-232 | no error iff XFIXES is absent or every request succeeds. A failed query, then the init, version, region-creation and region requests in that order, return the first refusal with the windows untouched; after them the first refused shape request's error is returned. An absent XFIXES leaves the windows untouched. On success every window is click-through |
| Startup.SetupTransparency | internal/ruler/ruler.go:234-269 | no error iff the atom lookup and every property request succeed. A failed lookup returns its error with the windows untouched, otherwise the first refused property request's error is returned. On success every window carries the mode's opacity |
| Startup.Init | internal/ruler/ruler.go:103-143 | the steps that ran are a non-empty prefix of connect, connect, screen, windows, click-through, transparency, keyboard. It succeeds iff every step succeeds; a step runs only when every earlier one succeeded, and the error returned is the answer of the last step that ran. On error the engine is unchanged. On success the engine is connected and holds exactly the windows the window step created, in order, each mapped, click-through iff XFIXES is present, and carrying the mode's opacity |
| Startup.ConnectionFailureStopsInit | internal/ruler/ruler.go:106-116 | a refused connection stops initialisation before any window is created: a refused utility connection after the first step with its error, otherwise a refused protocol connection after the second step with its error |
| Startup.WindowFailureStopsInit | internal/ruler/ruler.go:122-125 | a refused window allocation stops initialisation right after the window step, with its error |
| Startup.NoXfixesStillInitializes | internal/ruler/ruler.go:200-204 | without XFIXES initialisation still succeeds when everything else succeeds, and the windows are not click-through |
| Startup.InitFromNewIsReady | internal/ruler/ruler.go:103-143 | a fresh engine that initialises is ready, visible, and has every window mapped |
| Cli.ParseMode | internal/cli/cli.go:29-38 | success iff the flag is exactly "hide" or "ruler", giving that mode's default config. Anything else is an exit error with status 1 |
| Cli.RunCommand | internal/cli/cli.go:28-50 | a bad flag exits before any engine exists. Otherwise an Init error is returned as is and the loop is never entered. On success the loop starts from the sentinel state and runs exactly the engine Init produced, which is ready, connected and visible |
| Cli.DefaultFlagSelectsRuler | internal/cli/cli.go:19-19 | the default flag value "ruler" selects the default ruler mode |
| Cli.ModeFlagIsCaseSensitive | internal/cli/cli.go:32-38 | "Hide", "RULER" and "" are usage errors |

## Left out

- X11 requests themselves are not modelled: window identifiers, `Sync`, the
  wire encoding of `ConfigureWindow`, and the `uint32` casts that turn a
  negative y into a large unsigned value. They are foreign library calls,
  so rectangles are modelled as plain integers.
- Drawing a trail segment is not modelled: the GCs, `PolyLine`, the 1-bit
  mask pixmap and the shape mask. This is pixel rendering. Their errors are
  ignored by the source anyway.
- The fire-and-forget click-through request on a trail window is not
  modelled. A trail window is recorded as click-through even if that
  request fails.
- Opacity is only stored as a percentage (`real`). The percent-to-`uint32`
  conversion, the byte packing, and the linear fade in `updateTrails` use
  floating point. `GetOpacity` is modelled; the fade is not.
- There is no concurrency. The hotkey callback runs on the event-dispatch
  goroutine and races with the poll loop on `visible`. Here it is modelled
  as an `Event` interleaved one at a time (`Engine.Replay`).
- There is no real time. `time.Now`, `time.Sleep` and the 16 ms poll period are
  replaced by an integer `now` per iteration. Within one iteration the
  segment's timestamp and the expiry check use the same `now`. Go's
  saturating `Time.Sub` is not modelled.
- The cursor query and the screen-size query are inputs. The cursor query's
  `log.Fatal` ends the process, and that is outside the model.
- Go's 64-bit `int` overflow is not modelled. This includes
  `dx*dx + dy*dy` in the movement test; X coordinates are 16-bit.
- `Close`, the unused `lastTrailX`/`lastTrailY` fields, and the log output
  are not modelled.
- Startup.Init: on an error the model returns the engine unchanged. The
  source has by then stored what it obtained: the connections
  (`internal/ruler/ruler.go:107-116`), the screen size (`ruler.go:120`) and,
  once window creation succeeded, the windows (`ruler.go:185`), which are
  already mapped (`internal/ruler/hide_mode.go:109-111`) and may be partly
  click-through or partly translucent. The caller only closes the engine
  after an error, so none of that state is used again.
- Trail.Update requires the manager to hold the protocol connection: the
  source flushes it after every sweep (`internal/trail/trail.go:226`), so
  without it the source would dereference a nil connection. The
  utility-library connection is not needed, so a manager built with only
  the protocol connection sweeps as usual. The model gives the case without
  a protocol connection no behaviour rather than inventing one.
- Engine.Step, and the lemmas and `Engine.Replay` built on it, require a
  connected engine: every poll iteration queries the pointer and interns the
  opacity atom on the protocol connection without a nil check
  (`internal/ruler/ruler.go:272-275`, `ruler.go:439`). The loop only runs
  after a successful `Init`, which leaves the engine connected.
- `main.go` is a thin wrapper. `internal/ruler/mode.go` contributes only the
  shape of the `Hide | Ruler` union.
- The trail manager in `internal/trail/trail.go` is modelled on its own. The
  engine does not call it; it keeps its own copy of the trail logic, and both
  share `Segments`.

=== FILE: base.dfy ===
/** Shared vocabulary of the model: optional values, results, the opaque
    display-server error and the integer helpers Go provides built in. */
module Base {

  /** A value that may be absent; `None` stands for "not reconfigured",
      "no error" and similar absences. */
  datatype Option<+T> = None | Some(value: T)

  /** Either a value or the error that prevented computing it. */
  datatype Result<+T, +E> = Success(value: T) | Failure(error: E)

  /** An error reported by the display server. Its content is opaque to the
      overlay engine, which only propagates it. */
  datatype XError = XError(code: nat)

  /** Go's built-in `min` on two ints. */
  function Min(a: int, b: int): (m: int)
    ensures m <= a && m <= b
    ensures m == a || m == b
  {
    if a <= b then a else b
  }

  /** Go's built-in `max` on two ints. */
  function Max(a: int, b: int): (m: int)
    ensures m >= a && m >= b
    ensures m == a || m == b
  {
    if a >= b then a else b
  }

  /** Go's `n / 2` on `int`, which truncates toward zero (Dafny's `/` is
      Euclidean, so a negative `n` needs its own case). */
  function Half(n: int): (h: int)
    ensures 0 <= n ==> 0 <= n - 2 * h <= 1
    ensures n < 0 ==> -1 <= n - 2 * h <= 0
  {
    if n >= 0 then n / 2 else -((-n) / 2)
  }

  /** Truncation is symmetric about zero: halving a negated height gives the
      negated half, which a floor division would not. */
  lemma HalfCommutesWithNegation(n: int)
    ensures Half(-n) == -Half(n)
    ensures Half(-3) == -1
  {
  }
}

=== FILE: cli.dfy ===
/** The command-line action: picks the mode from the `--mode` flag, builds
    and initialises the engine, then hands over to the poll loop. */
module Cli {
  import opened Base
  import HideMode
  import RulerMode
  import Modes
  import Engine
  import Startup

  /** The value of `--mode` when the flag is not given. */
  const DefaultModeFlag: string := "ruler"

  /** A usage error: its message and the process exit status. */
  datatype ExitError = ExitError(message: string, code: int)

  /** Selects the mode named by the flag, case-sensitively. */
  function ParseMode(s: string): (r: Result<Modes.Mode, ExitError>)
    ensures r.Success? <==> s == "hide" || s == "ruler"
    ensures s == "hide" ==> r == Success(Modes.Hide(HideMode.DefaultHideModeConfig()))
    ensures s == "ruler" ==> r == Success(Modes.Ruler(RulerMode.DefaultRulerModeConfig()))
    ensures r.Failure? ==> r.error.code == 1
  {
    if s == "hide" then Success(Modes.Hide(HideMode.DefaultHideModeConfig()))
    else if s == "ruler" then Success(Modes.Ruler(RulerMode.DefaultRulerModeConfig()))
    else Failure(ExitError("Error: Invalid mode '" + s + "'. Use 'hide' or 'ruler'.", 1))
  }

  /** How the action ends: a usage error before any engine exists, an
      initialisation error, or an initialised engine entering the poll loop
      (which never returns) from its starting loop state. */
  datatype Outcome =
    | Exited(exit: ExitError)
    | InitFailed(err: XError)
    | Running(ruler: Engine.Ruler, loop: Engine.Loop)

  function RunCommand(modeFlag: string, env: Startup.Env): (out: Outcome)
    ensures out.Exited? <==> ParseMode(modeFlag).Failure?
    ensures out.Exited? ==> out.exit.code == 1
    ensures ParseMode(modeFlag).Success? ==>
              (out.InitFailed? <==> Startup.Init(Engine.New(ParseMode(modeFlag).value), env).err.Some?)
    ensures out.InitFailed? ==> Startup.Init(Engine.New(ParseMode(modeFlag).value), env).err == Some(out.err)
    ensures out.Running? ==>
              && Engine.Ready(out.ruler) && out.ruler.connected && out.ruler.visible && Engine.MappedMatchesVisible(out.ruler)
              && out.ruler.mode == ParseMode(modeFlag).value && out.loop == Engine.StartLoop
    // the loop runs the very engine initialisation produced
    ensures out.Running? ==> out.ruler == Startup.Init(Engine.New(ParseMode(modeFlag).value), env).ruler
  {
    match ParseMode(modeFlag)
    case Failure(e) => Exited(e)
    case Success(mode) =>
      var out := Startup.Init(Engine.New(mode), env);
      Startup.InitFromNewIsReady(mode, env);
      if out.err.Some? then InitFailed(out.err.value)
      else Running(out.ruler, Engine.StartLoop)
  }

  /** The default flag selects ruler mode. */
  lemma DefaultFlagSelectsRuler()
    ensures ParseMode(DefaultModeFlag) == Success(Modes.Ruler(RulerMode.DefaultRulerModeConfig()))
  {
  }

  /** Mode names are matched exactly: other spellings are usage errors. */
  lemma ModeFlagIsCaseSensitive()
    ensures ParseMode("Hide").Failure? && ParseMode("RULER").Failure? && ParseMode("").Failure?
  {
  }
}

=== FILE: engine.dfy ===
/** The ruler engine: the active mode, its windows, the visibility flag and
    the engine's own trail list, driven one poll-loop iteration at a time.
    Cursor samples, the clock and display-server answers are inputs. */
module Engine {
  import opened Base
  import opened Windows
  import opened Segments
  import Modes

  /** Lifetime of a trail segment: two seconds, in nanoseconds. */
  const TrailDuration: int := 2 * 1_000_000_000
  const TrailMinDistance: int := 1
  /** Background of a trail window; the shape mask hides it. */
  const TrailBackground: nat := 0x000000

  /** `connected` stands for both display connections being present. */
  datatype Ruler = Ruler(
    mode: Modes.Mode,
    connected: bool,
    windows: seq<Window>,
    screenWidth: int,
    screenHeight: int,
    visible: bool,
    trails: seq<Segment>)

  /** The poll loop's memory of the previous sample: the last cursor y seen
      by the mode update, and the last point seen by the trail. */
  datatype Loop = Loop(lastY: int, lastX: int, lastCY: int)

  /** Before the first sample every coordinate is the -1 sentinel. */
  const StartLoop: Loop := Loop(-1, -1, -1)

  function New(mode: Modes.Mode): (r: Ruler)
    ensures r.mode == mode && r.visible
    ensures !r.connected && r.windows == [] && r.trails == []
  {
    Ruler(mode, false, [], 0, 0, true, [])
  }

  /** The engine holds at least the windows its mode updates. */
  predicate Ready(r: Ruler)
  {
    |r.windows| >= Modes.WindowCount(r.mode)
  }

  /** Every window is mapped exactly when the engine is visible. */
  ghost predicate MappedMatchesVisible(r: Ruler)
  {
    forall i :: 0 <= i < |r.windows| ==> r.windows[i].mapped == r.visible
  }

  /** The hotkey handler: flips visibility and maps every window when it
      becomes visible, unmaps every window otherwise. Geometry is untouched. */
  function ToggleVisibility(r: Ruler): (t: Ruler)
    ensures t.visible == !r.visible
    ensures |t.windows| == |r.windows|
    ensures forall i :: 0 <= i < |r.windows| ==> t.windows[i] == r.windows[i].(mapped := !r.visible)
    ensures t == r.(visible := t.visible, windows := t.windows)
  {
    var v := !r.visible;
    r.(visible := v, windows := seq(|r.windows|, i requires 0 <= i < |r.windows| => r.windows[i].(mapped := v)))
  }

  /** Toggling twice restores the engine, window map state included. */
  lemma ToggleTwice(r: Ruler)
    requires MappedMatchesVisible(r)
    ensures ToggleVisibility(ToggleVisibility(r)) == r
  {
    var t := ToggleVisibility(ToggleVisibility(r));
    assert t.windows == r.windows;
  }

  /** The engine's copy of the movement test, on the previous and the new
      sample: a different point, the previous one not the sentinel. */
  function ShouldAddTrailSegment(x1: int, y1: int, x2: int, y2: int): (b: bool)
    ensures b <==> x1 != -1 && y1 != -1 && (x1 != x2 || y1 != y2)
  {
    UnitThresholdMeansMoved(x1, y1, x2, y2);
    FarEnough(x1, y1, x2, y2, TrailMinDistance)
  }

  /** Draws a trail segment stamped `now` into the engine's trail list;
      without a connection or a window it does nothing. */
  function AddTrailSegment(r: Ruler, x1: int, y1: int, x2: int, y2: int, now: int, alloc: Alloc): (r': Ruler)
    ensures r' == r.(trails := r'.trails)
    ensures !r.connected || !alloc.Granted? ==> r'.trails == r.trails
    ensures r.connected && alloc.Granted? ==>
              |r'.trails| == |r.trails| + 1 && r'.trails[..|r.trails|] == r.trails
              && Drawn(r'.trails[|r.trails|], x1, y1, x2, y2, now, TrailBackground)
  {
    r.(trails := AddSegment(r.trails, r.connected, x1, y1, x2, y2, now, alloc, TrailBackground))
  }

  /** Expires old trail segments at `now`. `atomOk` is whether the opacity
      atom lookup succeeded; when it fails the list is left untouched. */
  function UpdateTrails(r: Ruler, now: int, atomOk: bool): (r': Ruler)
    ensures r' == r.(trails := r'.trails)
    ensures !atomOk ==> r'.trails == r.trails
    // corollaries of the equality below, kept for the reader
    ensures atomOk ==> forall s :: s in r'.trails ==> now - s.timestamp <= TrailDuration
    ensures atomOk ==> forall s :: s in r.trails ==> (s in r'.trails <==> now - s.timestamp <= TrailDuration)
    // the survivors keep their order and nothing is added
    ensures atomOk ==> r'.trails == Expire(r.trails, now, TrailDuration)
  {
    if !atomOk then r else r.(trails := Expire(r.trails, now, TrailDuration))
  }

  /** The outcome of one poll-loop iteration: the new engine and loop state,
      and which display requests it issued. */
  datatype Frame = Frame(ruler: Ruler, loop: Loop, reconfigured: bool, trailRequested: bool)

  /** One iteration of the poll loop on cursor sample (cx, cy) at time `now`.
      `alloc` answers a trail-window allocation, `atomOk` the opacity atom
      lookup of the trail update. */
  function Step(r: Ruler, s: Loop, cx: int, cy: int, now: int, alloc: Alloc, atomOk: bool): (f: Frame)
    requires Ready(r) && r.connected
    // the loop always remembers the sample, even while hidden
    ensures f.loop == Loop(cy, cx, cy)
    // the mode is asked to move its windows iff y changed while visible
    ensures f.reconfigured <==> cy != s.lastY && r.visible
    ensures f.reconfigured ==> f.ruler.windows == Modes.UpdateWindows(r.mode, r.windows, cy, r.screenWidth, r.screenHeight)
    ensures !f.reconfigured ==> f.ruler.windows == r.windows
    // a segment is requested iff visible, past the first sample, and moved
    ensures f.trailRequested <==> r.visible && s.lastX != -1 && s.lastCY != -1 && (cx != s.lastX || cy != s.lastCY)
    ensures f.ruler == r.(windows := f.ruler.windows, trails := f.ruler.trails)
    ensures Ready(f.ruler)
  {
    var moved := cy != s.lastY;
    var reconfigured := moved && r.visible;
    var r1 := if reconfigured then r.(windows := Modes.UpdateWindows(r.mode, r.windows, cy, r.screenWidth, r.screenHeight)) else r;
    var lastY := if moved then cy else s.lastY;
    var pointMoved := cx != s.lastX || cy != s.lastCY;
    var requested := pointMoved && r.visible && s.lastX != -1 && s.lastCY != -1 && ShouldAddTrailSegment(s.lastX, s.lastCY, cx, cy);
    var r2 := if requested then AddTrailSegment(r1, s.lastX, s.lastCY, cx, cy, now, alloc) else r1;
    var lastX := if pointMoved then cx else s.lastX;
    var lastCY := if pointMoved then cy else s.lastCY;
    Frame(UpdateTrails(r2, now, atomOk), Loop(lastY, lastX, lastCY), reconfigured, requested)
  }

  /** The first sample at a real cursor position reconfigures a visible
      engine, and draws no trail. */
  lemma FirstStepReconfigures(r: Ruler, cx: int, cy: int, now: int, alloc: Alloc, atomOk: bool)
    requires Ready(r) && r.connected && r.visible && cy >= 0
    ensures Step(r, StartLoop, cx, cy, now, alloc, atomOk).reconfigured
    ensures !Step(r, StartLoop, cx, cy, now, alloc, atomOk).trailRequested
  {
  }

  /** What one iteration does to the trail list: a requested and granted
      segment lands after the kept part of the old list, which is its
      survivors when the atom lookup succeeds and all of it otherwise. */
  lemma StepTrails(r: Ruler, s: Loop, cx: int, cy: int, now: int, alloc: Alloc, atomOk: bool)
    requires Ready(r) && r.connected
    ensures var f := Step(r, s, cx, cy, now, alloc, atomOk);
            var kept := if atomOk then Expire(r.trails, now, TrailDuration) else r.trails;
            if f.trailRequested && alloc.Granted? then
              |f.ruler.trails| == |kept| + 1 && f.ruler.trails[..|kept|] == kept
              && Drawn(f.ruler.trails[|kept|], s.lastX, s.lastCY, cx, cy, now, TrailBackground)
            else
              f.ruler.trails == kept
  {
    var f := Step(r, s, cx, cy, now, alloc, atomOk);
    if atomOk && f.trailRequested && alloc.Granted? {
      var r2 := AddTrailSegment(r, s.lastX, s.lastCY, cx, cy, now, alloc);
      var seg := r2.trails[|r.trails|];
      assert r2.trails == r.trails + [seg];
      ExpireAfterAppendNow(r.trails, seg, now, TrailDuration);
    }
  }

  /** While hidden the windows stay put but the loop still tracks the cursor,
      so showing the engine again at the same height issues no update: the
      windows keep the geometry they had when hidden. */
  lemma ReshowAtSameHeightKeepsGeometry(r: Ruler, s: Loop, cx: int, cy: int, cx': int, now: int, alloc: Alloc)
    requires Ready(r) && r.connected && r.visible
    ensures var hidden := ToggleVisibility(r);
            var f := Step(hidden, s, cx, cy, now, alloc, true);
            var shown := ToggleVisibility(f.ruler);
            var g := Step(shown, f.loop, cx', cy, now, alloc, true);
            !g.reconfigured && Rects(g.ruler.windows) == Rects(r.windows)
  {
    var hidden := ToggleVisibility(r);
    var f := Step(hidden, s, cx, cy, now, alloc, true);
    var shown := ToggleVisibility(f.ruler);
    var g := Step(shown, f.loop, cx', cy, now, alloc, true);
    assert Rects(g.ruler.windows) == Rects(r.windows);
  }

  /** An external event seen by the engine: a poll tick with its inputs, or
      the visibility hotkey. The hotkey runs on its own dispatch path in the
      source; here events are interleaved one at a time. */
  datatype Event =
    | Tick(cx: int, cy: int, now: int, alloc: Alloc, atomOk: bool)
    | Hotkey

  /** Runs a sequence of events from engine `r` and loop state `s`. */
  function Replay(r: Ruler, s: Loop, events: seq<Event>): (f: Frame)
    requires Ready(r) && r.connected
    ensures Ready(f.ruler)
    ensures f.ruler.mode == r.mode && f.ruler.connected == r.connected
    ensures f.ruler.screenWidth == r.screenWidth && f.ruler.screenHeight == r.screenHeight
    decreases |events|
  {
    if |events| == 0 then Frame(r, s, false, false)
    else match events[0]
      case Tick(cx, cy, now, alloc, atomOk) =>
        var f := Step(r, s, cx, cy, now, alloc, atomOk);
        Replay(f.ruler, f.loop, events[1..])
      case Hotkey =>
        Replay(ToggleVisibility(r), s, events[1..])
  }

  /** Whatever the interleaving of ticks and hotkeys, the windows stay mapped
      exactly when the engine is visible, and keep their colours. */
  lemma {:induction false} ReplayKeepsMappingInSync(r: Ruler, s: Loop, events: seq<Event>)
    requires Ready(r) && r.connected && MappedMatchesVisible(r)
    ensures MappedMatchesVisible(Replay(r, s, events).ruler)
    ensures |Replay(r, s, events).ruler.windows| == |r.windows|
    ensures forall i :: 0 <= i < |r.windows| ==> Replay(r, s, events).ruler.windows[i].background == r.windows[i].background
    decreases |events|
  {
    if |events| > 0 {
      match events[0]
      case Tick(cx, cy, now, alloc, atomOk) =>
        var f := Step(r, s, cx, cy, now, alloc, atomOk);
        assert OnlyGeometryChanged(r.windows, f.ruler.windows);
        ReplayKeepsMappingInSync(f.ruler, f.loop, events[1..]);
      case Hotkey =>
        ReplayKeepsMappingInSync(ToggleVisibility(r), s, events[1..]);
    }
  }

  /** After any tick whose trail update ran, no trail is older than
      `TrailDuration`. */
  lemma TickKeepsTrailsFresh(r: Ruler, s: Loop, cx: int, cy: int, now: int, alloc: Alloc)
    requires Ready(r) && r.connected
    ensures forall t :: t in Step(r, s, cx, cy, now, alloc, true).ruler.trails ==> now - t.timestamp <= TrailDuration
  {
  }
}

=== FILE: hide_mode.dfy ===
/** Hide mode: two opaque bands cover the screen above and below a gap
    around the cursor, and two thin border strips mark the edges of the gap. */
module HideMode {
  import opened Base
  import opened Windows

  /** Hide-mode parameters, in pixels and 24-bit colours. */
  datatype HideModeConfig = HideModeConfig(
    hideHeight: int,       // height of each covering band
    cursorHeight: int,     // height of the gap left around the cursor
    borderHeight: int,     // thickness of each border strip
    overlayColor: nat,
    borderColor: nat,
    opacityPercent: real)

  /** 400-pixel bands, an 80-pixel gap, 2-pixel black borders, a light
      grey overlay, fully opaque. */
  function DefaultHideModeConfig(): (c: HideModeConfig)
    ensures c.hideHeight == 400 && c.cursorHeight == 80 && c.borderHeight == 2
    ensures c.overlayColor == 0xf0f0f0 && c.borderColor == 0x000000 && c.opacityPercent == 100.0
  {
    HideModeConfig(400, 80, 2, 0xf0f0f0, 0x000000, 100.0)
  }

  /** Top edge of the cursor gap (Go's truncating `/2`). */
  function CursorTop(c: HideModeConfig, cursorY: int): int
  {
    cursorY - Half(c.cursorHeight)
  }

  /** Bottom edge of the cursor gap. */
  function CursorBottom(c: HideModeConfig, cursorY: int): int
  {
    cursorY + Half(c.cursorHeight)
  }

  /** The geometry one update requests: a band that would have no height is
      `None`, meaning its window is not reconfigured. The borders are always
      reconfigured. */
  datatype HideLayout = HideLayout(top: Option<Rect>, topBorder: Rect, bottomBorder: Rect, bottom: Option<Rect>)

  /** The rectangles hide mode requests for a cursor at height `cursorY`. */
  function Layout(c: HideModeConfig, cursorY: int, screenWidth: int, screenHeight: int): (l: HideLayout)
    // the top band exists exactly when there is room above the gap
    ensures l.top.Some? <==> CursorTop(c, cursorY) > 0 && c.hideHeight > 0
    // it starts on screen, ends at the gap, and is at most hideHeight tall
    ensures l.top.Some? ==>
              && l.top.value.x == 0 && l.top.value.width == screenWidth
              && l.top.value.y >= 0
              && l.top.value.y + l.top.value.height == CursorTop(c, cursorY)
              && l.top.value.height == Min(CursorTop(c, cursorY), c.hideHeight)
    // the bottom band exists exactly when the gap ends above the screen bottom
    ensures l.bottom.Some? <==> CursorBottom(c, cursorY) < screenHeight && c.hideHeight > 0
    // it starts at the gap, ends on screen, and is at most hideHeight tall
    ensures l.bottom.Some? ==>
              && l.bottom.value.x == 0 && l.bottom.value.width == screenWidth
              && l.bottom.value.y == CursorBottom(c, cursorY)
              && l.bottom.value.y + l.bottom.value.height <= screenHeight
              && l.bottom.value.height == Min(screenHeight - CursorBottom(c, cursorY), c.hideHeight)
    // the borders sit just inside the gap, one border thickness tall
    ensures l.topBorder == Rect(0, CursorTop(c, cursorY), screenWidth, c.borderHeight)
    ensures l.bottomBorder == Rect(0, CursorBottom(c, cursorY) - c.borderHeight, screenWidth, c.borderHeight)
  {
    var cursorTop := CursorTop(c, cursorY);
    var cursorBottom := CursorBottom(c, cursorY);
    var topStart := Max(0, cursorTop - c.hideHeight);
    var topHeight := cursorTop - topStart;
    var bottomStart := cursorBottom;
    var bottomEnd := Min(screenHeight, cursorBottom + c.hideHeight);
    var bottomHeight := bottomEnd - bottomStart;
    HideLayout(
      if topHeight > 0 then Some(Rect(0, topStart, screenWidth, topHeight)) else None,
      Rect(0, cursorTop, screenWidth, c.borderHeight),
      Rect(0, cursorBottom - c.borderHeight, screenWidth, c.borderHeight),
      if bottomHeight > 0 then Some(Rect(0, bottomStart, screenWidth, bottomHeight)) else None)
  }

  /** Gives window `w` the requested rectangle, or keeps its previous one. */
  function Reconfigure(w: Window, r: Option<Rect>): Window
  {
    match r
    case Some(rect) => w.(rect := rect)
    case None => w
  }

  /** Moves the four hide-mode windows (top band, top border, bottom border,
      bottom band, in that order) around the cursor. The source indexes the
      first four windows unconditionally, hence the precondition. */
  function UpdateWindows(c: HideModeConfig, windows: seq<Window>, cursorY: int, screenWidth: int, screenHeight: int): (ws: seq<Window>)
    requires |windows| >= 4
    ensures OnlyGeometryChanged(windows, ws)
    ensures var l := Layout(c, cursorY, screenWidth, screenHeight);
            && ws[0].rect == (if l.top.Some? then l.top.value else windows[0].rect)
            && ws[1].rect == l.topBorder
            && ws[2].rect == l.bottomBorder
            && ws[3].rect == (if l.bottom.Some? then l.bottom.value else windows[3].rect)
    ensures ws[4..] == windows[4..]
  {
    var l := Layout(c, cursorY, screenWidth, screenHeight);
    [Reconfigure(windows[0], l.top),
     Reconfigure(windows[1], Some(l.topBorder)),
     Reconfigure(windows[2], Some(l.bottomBorder)),
     Reconfigure(windows[3], l.bottom)] + windows[4..]
  }

  /** Neither band covers any row of the cursor gap. */
  lemma BandsAvoidCursorGap(c: HideModeConfig, cursorY: int, screenWidth: int, screenHeight: int, row: int)
    requires CursorTop(c, cursorY) <= row < CursorBottom(c, cursorY)
    ensures var l := Layout(c, cursorY, screenWidth, screenHeight);
            && (l.top.Some? ==> !(l.top.value.y <= row < l.top.value.y + l.top.value.height))
            && (l.bottom.Some? ==> !(l.bottom.value.y <= row < l.bottom.value.y + l.bottom.value.height))
  {
  }

  /** Repeating an update with the same cursor height changes nothing:
      the geometry does not drift. */
  lemma UpdateIsIdempotent(c: HideModeConfig, windows: seq<Window>, cursorY: int, screenWidth: int, screenHeight: int)
    requires |windows| >= 4
    ensures var once := UpdateWindows(c, windows, cursorY, screenWidth, screenHeight);
            UpdateWindows(c, once, cursorY, screenWidth, screenHeight) == once
  {
    var once := UpdateWindows(c, windows, cursorY, screenWidth, screenHeight);
    var twice := UpdateWindows(c, once, cursorY, screenWidth, screenHeight);
    assert twice[..4] == once[..4];
    assert twice == twice[..4] + twice[4..];
    assert once == once[..4] + once[4..];
  }

  /** When both bands have room, the update fixes all four rectangles, so the
      result no longer depends on where the windows were before. */
  lemma FullUpdateForgetsHistory(c: HideModeConfig, a: seq<Window>, b: seq<Window>, cursorY: int, screenWidth: int, screenHeight: int)
    requires |a| >= 4 && |b| >= 4
    requires c.hideHeight > 0
    requires CursorTop(c, cursorY) > 0 && CursorBottom(c, cursorY) < screenHeight
    ensures Rects(UpdateWindows(c, a, cursorY, screenWidth, screenHeight))[..4]
         == Rects(UpdateWindows(c, b, cursorY, screenWidth, screenHeight))[..4]
  {
    var ra := Rects(UpdateWindows(c, a, cursorY, screenWidth, screenHeight))[..4];
    var rb := Rects(UpdateWindows(c, b, cursorY, screenWidth, screenHeight))[..4];
    assert forall i :: 0 <= i < 4 ==> ra[i] == rb[i];
  }

  /** A band with no room keeps whatever rectangle its window had: at the
      top edge of the screen the top band is left where it was. */
  lemma TopBandFrozenAtScreenTop(c: HideModeConfig, windows: seq<Window>, cursorY: int, screenWidth: int, screenHeight: int)
    requires |windows| >= 4
    requires cursorY <= Half(c.cursorHeight)
    ensures UpdateWindows(c, windows, cursorY, screenWidth, screenHeight)[0] == windows[0]
  {
  }

  /** The defaults: 400-pixel bands around an 80-pixel gap, 2-pixel borders.
      With the cursor mid-screen on 1920x1080 both bands get full height. */
  lemma DefaultLayoutMidScreen()
    ensures var c := DefaultHideModeConfig();
            c.hideHeight == 400 && c.cursorHeight == 80 && c.borderHeight == 2
    ensures Layout(DefaultHideModeConfig(), 540, 1920, 1080)
         == HideLayout(Some(Rect(0, 100, 1920, 400)), Rect(0, 500, 1920, 2),
                       Rect(0, 578, 1920, 2), Some(Rect(0, 580, 1920, 400)))
  {
  }

  /** A 200-pixel band with a 50-pixel gap at y = 540 on a 1080-pixel
      screen: the top band is [315, 515) and the bottom band [565, 765). */
  lemma LayoutScenario()
    ensures var c := HideModeConfig(200, 50, 2, 0, 0, 100.0);
            var l := Layout(c, 540, 1920, 1080);
            l.top == Some(Rect(0, 315, 1920, 200)) && l.bottom == Some(Rect(0, 565, 1920, 200))
  {
  }

  /** Near the bottom edge the bottom band is clipped to the screen. */
  lemma BottomBandClipped()
    ensures Layout(DefaultHideModeConfig(), 1000, 1920, 1080).bottom == Some(Rect(0, 1040, 1920, 40))
    ensures Layout(DefaultHideModeConfig(), 1050, 1920, 1080).bottom == None
  {
  }

  /** The four windows in creation order: top band, top border, bottom
      border, bottom band. Bands start one pixel tall, borders at their
      final thickness; every window starts at the origin. */
  function WindowSpecs(c: HideModeConfig, screenWidth: int): seq<WindowSpec>
  {
    [WindowSpec(Rect(0, 0, screenWidth, 1), c.overlayColor),
     WindowSpec(Rect(0, 0, screenWidth, c.borderHeight), c.borderColor),
     WindowSpec(Rect(0, 0, screenWidth, c.borderHeight), c.borderColor),
     WindowSpec(Rect(0, 0, screenWidth, 1), c.overlayColor)]
  }

  /** Creates the four hide-mode windows; `server(i)` answers the i-th
      allocation. Any refusal returns only the error. */
  function CreateWindows(c: HideModeConfig, screenWidth: int, screenHeight: int, server: nat -> Alloc): (r: Result<seq<Window>, XError>)
    ensures r.Success? <==> forall i :: 0 <= i < 4 ==> server(i).Granted?
    ensures r.Success? ==>
              && |r.value| == 4
              && (forall i :: 0 <= i < 4 ==>
                    r.value[i].mapped && r.value[i].rect.x == 0 && r.value[i].rect.y == 0
                    && r.value[i].rect.width == screenWidth && !r.value[i].clickThrough)
              && r.value[0].background == c.overlayColor && r.value[0].rect.height == 1
              && r.value[1].background == c.borderColor && r.value[1].rect.height == c.borderHeight
              && r.value[2].background == c.borderColor && r.value[2].rect.height == c.borderHeight
              && r.value[3].background == c.overlayColor && r.value[3].rect.height == 1
    ensures r.Failure? ==>
              exists k :: 0 <= k < 4 && (forall j :: 0 <= j < k ==> server(j).Granted?)
                          && AllocError(server(k)) == Some(r.error)
  {
    CreateAll(WindowSpecs(c, screenWidth), server)
  }
}

=== FILE: modes.dfy ===
/** The two presentation modes as one closed union; the engine talks to the
    active mode only through the dispatchers below. */
module Modes {
  import opened Base
  import opened Windows
  import HideMode
  import RulerMode

  datatype Mode = Hide(hide: HideMode.HideModeConfig) | Ruler(ruler: RulerMode.RulerModeConfig)

  /** How many windows the mode owns: four for hide mode, one for ruler mode. */
  function WindowCount(m: Mode): nat
  {
    match m
    case Hide(_) => 4
    case Ruler(_) => 1
  }

  /** The opacity, in percent, set on every window of the mode. */
  function GetOpacity(m: Mode): (o: real)
    ensures m.Hide? ==> o == m.hide.opacityPercent
    ensures m.Ruler? ==> o == m.ruler.opacityPercent
  {
    match m
    case Hide(c) => c.opacityPercent
    case Ruler(c) => c.opacityPercent
  }

  /** Creates the mode's window set: all of it, mapped, or an error. */
  function CreateWindows(m: Mode, screenWidth: int, screenHeight: int, server: nat -> Alloc): (r: Result<seq<Window>, XError>)
    ensures r.Success? <==> forall i :: 0 <= i < WindowCount(m) ==> server(i).Granted?
    ensures r.Success? ==> |r.value| == WindowCount(m)
    ensures r.Success? ==> forall i :: 0 <= i < |r.value| ==> r.value[i].mapped && !r.value[i].clickThrough && r.value[i].opacity.None?
  {
    match m
    case Hide(c) => HideMode.CreateWindows(c, screenWidth, screenHeight, server)
    case Ruler(c) => RulerMode.CreateWindows(c, screenWidth, screenHeight, server)
  }

  /** Repositions the mode's windows around the cursor; only rectangles change. */
  function UpdateWindows(m: Mode, windows: seq<Window>, cursorY: int, screenWidth: int, screenHeight: int): (ws: seq<Window>)
    requires |windows| >= WindowCount(m)
    ensures OnlyGeometryChanged(windows, ws)
  {
    match m
    case Hide(c) => HideMode.UpdateWindows(c, windows, cursorY, screenWidth, screenHeight)
    case Ruler(c) => RulerMode.UpdateWindows(c, windows, cursorY, screenWidth, screenHeight)
  }

  /** For either mode, a second update with the same cursor height is a no-op. */
  lemma UpdateIsIdempotent(m: Mode, windows: seq<Window>, cursorY: int, screenWidth: int, screenHeight: int)
    requires |windows| >= WindowCount(m)
    ensures var once := UpdateWindows(m, windows, cursorY, screenWidth, screenHeight);
            UpdateWindows(m, once, cursorY, screenWidth, screenHeight) == once
  {
    match m
    case Hide(c) => HideMode.UpdateIsIdempotent(c, windows, cursorY, screenWidth, screenHeight);
    case Ruler(c) => RulerMode.UpdateIsIdempotent(c, windows, cursorY, screenWidth, screenHeight);
  }
}

=== FILE: ruler_mode.dfy ===
/** Ruler mode: a single translucent band of fixed height follows the
    cursor vertically. */
module RulerMode {
  import opened Base
  import opened Windows

  datatype RulerModeConfig = RulerModeConfig(rulerHeight: int, rulerColor: nat, opacityPercent: real)

  /** A 40-pixel grey band at 94% opacity. */
  function DefaultRulerModeConfig(): (c: RulerModeConfig)
    ensures c.rulerHeight == 40 && c.rulerColor == 0x808080 && c.opacityPercent == 94.0
  {
    RulerModeConfig(40, 0x808080, 94.0)
  }

  /** The band for a cursor at height `cursorY`: full width, `rulerHeight`
      tall, its top half a ruler above the cursor. It is not clamped to the
      screen and the screen height plays no part. */
  function Band(c: RulerModeConfig, cursorY: int, screenWidth: int): (r: Rect)
    ensures r.x == 0 && r.width == screenWidth && r.height == c.rulerHeight
    ensures r.y + Half(c.rulerHeight) == cursorY
  {
    Rect(0, cursorY - Half(c.rulerHeight), screenWidth, c.rulerHeight)
  }

  /** Moves the ruler window, the first of `windows`, onto the band. */
  function UpdateWindows(c: RulerModeConfig, windows: seq<Window>, cursorY: int, screenWidth: int, screenHeight: int): (ws: seq<Window>)
    requires |windows| >= 1
    ensures OnlyGeometryChanged(windows, ws)
    ensures ws[0].rect.y + Half(c.rulerHeight) == cursorY
    ensures ws[0].rect.x == 0 && ws[0].rect.width == screenWidth && ws[0].rect.height == c.rulerHeight
    ensures ws[1..] == windows[1..]
  {
    [windows[0].(rect := Band(c, cursorY, screenWidth))] + windows[1..]
  }

  /** A band of positive height always contains the cursor row, and an even
      height places it exactly in the middle. */
  lemma BandCoversCursor(c: RulerModeConfig, cursorY: int, screenWidth: int)
    requires c.rulerHeight >= 1
    ensures var r := Band(c, cursorY, screenWidth);
            r.y <= cursorY < r.y + r.height
    ensures var r := Band(c, cursorY, screenWidth);
            c.rulerHeight % 2 == 0 ==> cursorY - r.y == r.y + r.height - cursorY
  {
    var r := Band(c, cursorY, screenWidth);
    assert 0 <= c.rulerHeight - 2 * Half(c.rulerHeight) <= 1;
  }

  /** Near the top of the screen the band starts above it: y is negative. */
  lemma BandNotClamped(c: RulerModeConfig, cursorY: int, screenWidth: int)
    requires cursorY < Half(c.rulerHeight)
    ensures Band(c, cursorY, screenWidth).y < 0
  {
  }

  /** The screen height does not influence the update. */
  lemma UpdateIgnoresScreenHeight(c: RulerModeConfig, windows: seq<Window>, cursorY: int, screenWidth: int, h1: int, h2: int)
    requires |windows| >= 1
    ensures UpdateWindows(c, windows, cursorY, screenWidth, h1) == UpdateWindows(c, windows, cursorY, screenWidth, h2)
  {
  }

  /** Repeating an update with the same cursor height changes nothing. */
  lemma UpdateIsIdempotent(c: RulerModeConfig, windows: seq<Window>, cursorY: int, screenWidth: int, screenHeight: int)
    requires |windows| >= 1
    ensures var once := UpdateWindows(c, windows, cursorY, screenWidth, screenHeight);
            UpdateWindows(c, once, cursorY, screenWidth, screenHeight) == once
  {
    var once := UpdateWindows(c, windows, cursorY, screenWidth, screenHeight);
    assert once == [once[0]] + once[1..];
  }

  /** The default ruler is 40 pixels tall: at y = 100 it spans 80 to 120. */
  lemma DefaultBandAt100()
    ensures var r := Band(DefaultRulerModeConfig(), 100, 1920);
            r.y == 80 && r.y + r.height == 120
  {
  }

  /** Creates the single ruler window at the origin, `screenWidth` wide and
      `rulerHeight` tall; `server(0)` answers its allocation. */
  function CreateWindows(c: RulerModeConfig, screenWidth: int, screenHeight: int, server: nat -> Alloc): (r: Result<seq<Window>, XError>)
    ensures r.Success? <==> server(0).Granted?
    ensures r.Success? ==> r.value == [Window(Rect(0, 0, screenWidth, c.rulerHeight), c.rulerColor, true, false, None)]
    ensures r.Failure? ==> AllocError(server(0)) == Some(r.error)
  {
    CreateAll([WindowSpec(Rect(0, 0, screenWidth, c.rulerHeight), c.rulerColor)], server)
  }
}

=== FILE: segments.dfy ===
/** Trail-segment logic shared by the trail manager and the engine's own
    trail list: the movement threshold, the padded bounding box, appending a
    segment, and the time-driven expiry filter. Times are integer
    nanoseconds. */
module Segments {
  import opened Base
  import opened Windows

  /** Padding, in pixels, around a segment's bounding box. */
  const Padding: int := 5

  /** One drawn step of pointer movement from (x1, y1) to (x2, y2), created at
      `timestamp`, owning the window it is drawn in. */
  datatype Segment = Segment(x1: int, y1: int, x2: int, y2: int, timestamp: int, window: Window)

  /** The movement test: false while the last point is the -1 sentinel,
      otherwise whether the squared distance reaches `minDistance` squared. */
  function FarEnough(lastX: int, lastY: int, x: int, y: int, minDistance: int): (b: bool)
    ensures b ==> lastX != -1 && lastY != -1
  {
    if lastX == -1 || lastY == -1 then false
    else
      var dx := x - lastX;
      var dy := y - lastY;
      dx * dx + dy * dy >= minDistance * minDistance
  }

  /** With a one-pixel threshold the test accepts exactly the moves to a
      different point. */
  lemma UnitThresholdMeansMoved(lastX: int, lastY: int, x: int, y: int)
    ensures FarEnough(lastX, lastY, x, y, 1) <==> lastX != -1 && lastY != -1 && (x != lastX || y != lastY)
  {
    var dx := x - lastX;
    var dy := y - lastY;
    assert dx * dx >= 0 && dy * dy >= 0;
    if dx != 0 {
      assert dx * dx >= 1 by {
        if dx > 0 { assert dx * dx >= dx; } else { assert dx * dx >= -dx; }
      }
    }
    if dy != 0 {
      assert dy * dy >= 1 by {
        if dy > 0 { assert dy * dy >= dy; } else { assert dy * dy >= -dy; }
      }
    }
  }

  /** The window for a segment: the box spanned by its endpoints, padded by
      five pixels on every side, so both endpoints lie at least five pixels
      inside it. */
  function BoundingBox(x1: int, y1: int, x2: int, y2: int): (r: Rect)
    ensures r.x == Min(x1, x2) - Padding && r.y == Min(y1, y2) - Padding
    ensures r.width == (if x1 <= x2 then x2 - x1 else x1 - x2) + 2 * Padding
    ensures r.height == (if y1 <= y2 then y2 - y1 else y1 - y2) + 2 * Padding
    ensures Padding <= x1 - r.x <= r.width - Padding && Padding <= x2 - r.x <= r.width - Padding
    ensures Padding <= y1 - r.y <= r.height - Padding && Padding <= y2 - r.y <= r.height - Padding
  {
    var minX := Min(x1, x2) - Padding;
    var minY := Min(y1, y2) - Padding;
    var maxX := Max(x1, x2) + Padding;
    var maxY := Max(y1, y2) + Padding;
    Rect(minX, minY, maxX - minX, maxY - minY)
  }

  /** `s` is the segment drawn from (x1, y1) to (x2, y2) at time `now`: a
      mapped, click-through window over the padded bounding box. */
  ghost predicate Drawn(s: Segment, x1: int, y1: int, x2: int, y2: int, now: int, background: nat)
  {
    && s.x1 == x1 && s.y1 == y1 && s.x2 == x2 && s.y2 == y2
    && s.timestamp == now
    && s.window == Window(BoundingBox(x1, y1, x2, y2), background, true, true, None)
  }

  /** Adds a segment: nothing happens without a connection or when the
      display server refuses the window; otherwise exactly one segment is
      appended at the end. */
  function AddSegment(segs: seq<Segment>, connected: bool, x1: int, y1: int, x2: int, y2: int,
                      now: int, alloc: Alloc, background: nat): (r: seq<Segment>)
    ensures !connected || !alloc.Granted? ==> r == segs
    ensures connected && alloc.Granted? ==>
              |r| == |segs| + 1 && r[..|segs|] == segs && Drawn(r[|segs|], x1, y1, x2, y2, now, background)
  {
    if !connected then segs
    else
      var box := BoundingBox(x1, y1, x2, y2);
      match alloc
      case GenerateFailed(_) => segs
      case CreateFailed(_) => segs
      case Granted => segs + [Segment(x1, y1, x2, y2, now, Window(box, background, true, true, None))]
  }

  /** Whether a segment is still within its lifetime at `now`; a segment
      exactly `duration` old is still alive. */
  predicate Alive(s: Segment, now: int, duration: int)
  {
    now - s.timestamp <= duration
  }

  /** The expiry filter: drops every segment older than `duration` and keeps
      the rest, in order. */
  function Expire(segs: seq<Segment>, now: int, duration: int): (kept: seq<Segment>)
    ensures |kept| <= |segs|
    ensures forall s :: s in kept ==> s in segs && Alive(s, now, duration)
    ensures forall s :: s in segs && Alive(s, now, duration) ==> s in kept
  {
    if |segs| == 0 then []
    else
      var rest := Expire(segs[1..], now, duration);
      if Alive(segs[0], now, duration) then [segs[0]] + rest else rest
  }

  /** Filtering distributes over concatenation, so survivors keep their
      relative order. */
  lemma {:induction false} ExpireAppend(a: seq<Segment>, b: seq<Segment>, now: int, duration: int)
    ensures Expire(a + b, now, duration) == Expire(a, now, duration) + Expire(b, now, duration)
  {
    if |a| == 0 {
      assert a + b == b;
    } else {
      assert (a + b)[1..] == a[1..] + b;
      ExpireAppend(a[1..], b, now, duration);
    }
  }

  /** A list whose segments are all alive passes the filter unchanged. */
  lemma {:induction false} ExpireKeepsAlive(segs: seq<Segment>, now: int, duration: int)
    requires forall i :: 0 <= i < |segs| ==> Alive(segs[i], now, duration)
    ensures Expire(segs, now, duration) == segs
  {
    if |segs| > 0 {
      ExpireKeepsAlive(segs[1..], now, duration);
    }
  }

  /** Filtering twice at the same instant is filtering once. */
  lemma ExpireIsIdempotent(segs: seq<Segment>, now: int, duration: int)
    ensures Expire(Expire(segs, now, duration), now, duration) == Expire(segs, now, duration)
  {
    var kept := Expire(segs, now, duration);
    assert forall i :: 0 <= i < |kept| ==> kept[i] in kept;
    ExpireKeepsAlive(kept, now, duration);
  }

  /** Time only moves forward: filtering at `earlier` and then at `later` is
      the same as filtering once at `later`. */
  lemma {:induction false} ExpireLater(segs: seq<Segment>, earlier: int, later: int, duration: int)
    requires earlier <= later
    ensures Expire(Expire(segs, earlier, duration), later, duration) == Expire(segs, later, duration)
  {
    if |segs| > 0 {
      ExpireLater(segs[1..], earlier, later, duration);
      var rest := Expire(segs[1..], earlier, duration);
      if Alive(segs[0], earlier, duration) {
        assert Expire([segs[0]] + rest, later, duration)
            == Expire([segs[0]], later, duration) + Expire(rest, later, duration) by {
          ExpireAppend([segs[0]], rest, later, duration);
        }
      }
    }
  }

  /** A segment created at `t` is present at every instant up to
      `t + duration` and absent at every instant after it. */
  lemma SegmentLifetime(segs: seq<Segment>, s: Segment, now: int, duration: int)
    requires s in segs
    ensures s in Expire(segs, now, duration) <==> now <= s.timestamp + duration
  {
  }

  /** Appending a segment stamped `now` and then filtering at `now` keeps it,
      after the survivors of the old list. */
  lemma ExpireAfterAppendNow(segs: seq<Segment>, s: Segment, now: int, duration: int)
    requires s.timestamp == now && duration >= 0
    ensures Expire(segs + [s], now, duration) == Expire(segs, now, duration) + [s]
  {
    ExpireAppend(segs, [s], now, duration);
    assert Expire([s], now, duration) == [s];
  }
}

=== FILE: startup.dfy ===
/** Engine initialisation: a fixed sequence of fallible steps that stops at
    the first error. Every display-server answer is part of `Env`. */
module Startup {
  import opened Base
  import opened Windows
  import Modes
  import opened Engine

  /** The initialisation steps, in the order they run. */
  datatype InitStep =
    | ConnectUtil       // the utility-library connection
    | ConnectProtocol   // the raw protocol connection
    | QueryScreen       // the default screen's size
    | MakeWindows       // the mode's window set
    | ClickThrough      // empty input shapes on every window
    | Transparency      // the opacity property on every window
    | Keyboard          // the global toggle hotkey

  const InitOrder: seq<InitStep> :=
    [ConnectUtil, ConnectProtocol, QueryScreen, MakeWindows, ClickThrough, Transparency, Keyboard]

  /** The answers of the XFIXES extension. `query` is the extension query:
      an error, or whether the extension is present. `shape(i)` answers the
      input-shape request for window i. */
  datatype XfixesEnv = XfixesEnv(
    query: Result<bool, XError>,
    init: Option<XError>,
    version: Option<XError>,
    newRegion: Option<XError>,
    createRegion: Option<XError>,
    shape: nat -> Option<XError>)

  /** The display server's answers to initialisation. `server(i)` answers
      the i-th window allocation; `property(i)` the opacity property on
      window i; `atom` the opacity atom lookup; `keybind` the hotkey grab. */
  datatype Env = Env(
    utilConn: Option<XError>,
    protoConn: Option<XError>,
    screenWidth: nat,
    screenHeight: nat,
    server: nat -> Alloc,
    xfixes: XfixesEnv,
    atom: Option<XError>,
    property: nat -> Option<XError>,
    keybind: Option<XError>)

  /** Whether click-through is applied at all: the extension query answered
      and reported the extension present. */
  predicate XfixesPresent(x: XfixesEnv)
  {
    x.query == Success(true)
  }

  /** The XFIXES requests made before the per-window shapes all succeed. */
  predicate RegionReady(x: XfixesEnv)
  {
    x.query == Success(true) && x.init.None? && x.version.None? && x.newRegion.None? && x.createRegion.None?
  }

  /** Click-through setup over `n` windows reports no error: the extension
      is absent, or every request, down to each window's shape, succeeds. */
  ghost predicate ClickThroughOk(x: XfixesEnv, n: nat)
  {
    x.query == Success(false) || (RegionReady(x) && forall i :: 0 <= i < n ==> x.shape(i).None?)
  }

  /** Transparency setup over `n` windows reports no error. */
  ghost predicate TransparencyOk(atom: Option<XError>, property: nat -> Option<XError>, n: nat)
  {
    atom.None? && forall i :: 0 <= i < n ==> property(i).None?
  }

  /** Makes every window click-through. An absent extension is not an
      error: the windows are returned untouched and initialisation goes on.
      Otherwise the first refused request ends the setup with its error. */
  function SetupClickThrough(x: XfixesEnv, ws: seq<Window>): (out: Applied)
    ensures |out.windows| == |ws|
    ensures out.err.None? <==> ClickThroughOk(x, |ws|)
    ensures x.query.Failure? ==> out == Applied(ws, Some(x.query.error))
    ensures x.query == Success(false) ==> out == Applied(ws, None)
    // the extension-wide requests, in order: the first refusal is returned
    ensures x.query == Success(true) && x.init.Some? ==> out == Applied(ws, x.init)
    ensures x.query == Success(true) && x.init.None? && x.version.Some? ==> out == Applied(ws, x.version)
    ensures x.query == Success(true) && x.init.None? && x.version.None? && x.newRegion.Some? ==> out == Applied(ws, x.newRegion)
    ensures (x.query == Success(true) && x.init.None? && x.version.None? && x.newRegion.None? && x.createRegion.Some?)
              ==> out == Applied(ws, x.createRegion)
    // then one shape request per window: the first refused one is returned
    ensures RegionReady(x) && out.err.Some? ==>
              exists k :: 0 <= k < |ws| && out.err == x.shape(k) && forall j :: 0 <= j < k ==> x.shape(j).None?
    ensures out.err.None? ==>
              forall i :: 0 <= i < |ws| ==> out.windows[i] == ws[i].(clickThrough := ws[i].clickThrough || XfixesPresent(x))
  {
    match x.query
    case Failure(e) => Applied(ws, Some(e))
    case Success(present) =>
      if !present then Applied(ws, None)
      else if x.init.Some? then Applied(ws, x.init)
      else if x.version.Some? then Applied(ws, x.version)
      else if x.newRegion.Some? then Applied(ws, x.newRegion)
      else if x.createRegion.Some? then Applied(ws, x.createRegion)
      else ApplyEach(ws, MakeClickThrough, x.shape)
  }

  /** Sets the mode's opacity on every window, after looking up the atom.
      A failed lookup, or the first refused property request, ends the setup
      with its error. */
  function SetupTransparency(atom: Option<XError>, property: nat -> Option<XError>, ws: seq<Window>, percent: real): (out: Applied)
    ensures |out.windows| == |ws|
    ensures out.err.None? <==> TransparencyOk(atom, property, |ws|)
    ensures atom.Some? ==> out == Applied(ws, atom)
    ensures atom.None? && out.err.Some? ==>
              exists k :: 0 <= k < |ws| && out.err == property(k) && forall j :: 0 <= j < k ==> property(j).None?
    ensures out.err.None? ==> forall i :: 0 <= i < |ws| ==> out.windows[i] == ws[i].(opacity := Some(percent))
  {
    if atom.Some? then Applied(ws, atom) else ApplyEach(ws, SetOpacity(percent), property)
  }

  /** The result of initialisation: the engine, the steps that ran, and the
      error that stopped it, if any. */
  datatype InitResult = InitResult(ruler: Ruler, ran: seq<InitStep>, err: Option<XError>)

  /** `t` is `r` fully initialised against `env`: connected, holding exactly
      the windows created for its mode, all mapped, click-through when the extension is
      present, and carrying the mode's opacity. */
  ghost predicate Initialized(t: Ruler, r: Ruler, env: Env)
  {
    && t == r.(connected := true, windows := t.windows, screenWidth := env.screenWidth, screenHeight := env.screenHeight)
    && |t.windows| == Modes.WindowCount(r.mode)
    // the windows are the ones the window step created, as set up afterwards
    && InitWindows(r, env).Success?
    && (forall i :: 0 <= i < |t.windows| ==>
         t.windows[i] == InitWindows(r, env).value[i].(clickThrough := XfixesPresent(env.xfixes),
                                                        opacity := Some(Modes.GetOpacity(r.mode))))
    // corollaries of the equality above, kept for the reader
    && forall i :: 0 <= i < |t.windows| ==>
         && t.windows[i].mapped
         && t.windows[i].clickThrough == XfixesPresent(env.xfixes)
         && t.windows[i].opacity == Some(Modes.GetOpacity(r.mode))
  }

  /** The window set the window step produces for `r` under `env`. */
  function InitWindows(r: Ruler, env: Env): Result<seq<Window>, XError>
  {
    Modes.CreateWindows(r.mode, env.screenWidth, env.screenHeight, env.server)
  }

  /** Runs the initialisation steps in order and stops at the first error.
      On error the caller only closes the connection, so the engine is
      returned as it was. */
  function Init(r: Ruler, env: Env): (out: InitResult)
    ensures 1 <= |out.ran| <= |InitOrder| && out.ran == InitOrder[..|out.ran|]
    ensures |out.ran| < |InitOrder| ==> out.err.Some?
    // success exactly when every step succeeds
    ensures out.err.None? <==>
              && env.utilConn.None? && env.protoConn.None? && InitWindows(r, env).Success?
              && ClickThroughOk(env.xfixes, Modes.WindowCount(r.mode))
              && TransparencyOk(env.atom, env.property, Modes.WindowCount(r.mode))
              && env.keybind.None?
    // a step runs only after every earlier step succeeded
    ensures |out.ran| >= 2 ==> env.utilConn.None?
    ensures |out.ran| >= 3 ==> env.protoConn.None?
    ensures |out.ran| >= 5 ==> InitWindows(r, env).Success?
    ensures |out.ran| >= 6 ==> ClickThroughOk(env.xfixes, Modes.WindowCount(r.mode))
    ensures |out.ran| >= 7 ==> TransparencyOk(env.atom, env.property, Modes.WindowCount(r.mode))
    // the error returned is the answer of the last step that ran
    ensures |out.ran| != 3
    ensures |out.ran| == 1 ==> out.err == env.utilConn
    ensures |out.ran| == 2 ==> out.err == env.protoConn
    ensures |out.ran| == 4 ==> InitWindows(r, env).Failure? && out.err == Some(InitWindows(r, env).error)
    ensures |out.ran| == 5 ==> InitWindows(r, env).Success? && out.err == SetupClickThrough(env.xfixes, InitWindows(r, env).value).err
    ensures |out.ran| == 6 ==>
              && InitWindows(r, env).Success?
              && out.err == SetupTransparency(env.atom, env.property,
                                              SetupClickThrough(env.xfixes, InitWindows(r, env).value).windows,
                                              Modes.GetOpacity(r.mode)).err
    ensures |out.ran| == 7 && out.err.Some? ==> out.err == env.keybind
    ensures out.err.Some? ==> out.ruler == r
    ensures out.err.None? ==> out.ran == InitOrder && Initialized(out.ruler, r, env)
  {
    if env.utilConn.Some? then InitResult(r, InitOrder[..1], env.utilConn)
    else if env.protoConn.Some? then InitResult(r, InitOrder[..2], env.protoConn)
    else
      var w, h := env.screenWidth, env.screenHeight;
      match Modes.CreateWindows(r.mode, w, h, env.server)
      case Failure(e) => InitResult(r, InitOrder[..4], Some(e))
      case Success(ws) =>
        var click := SetupClickThrough(env.xfixes, ws);
        if click.err.Some? then InitResult(r, InitOrder[..5], click.err)
        else
          var translucent := SetupTransparency(env.atom, env.property, click.windows, Modes.GetOpacity(r.mode));
          if translucent.err.Some? then InitResult(r, InitOrder[..6], translucent.err)
          else if env.keybind.Some? then InitResult(r, InitOrder, env.keybind)
          else InitResult(r.(connected := true, windows := translucent.windows, screenWidth := w, screenHeight := h), InitOrder, None)
  }

  /** A refused connection ends initialisation at once with that error. */
  lemma ConnectionFailureStopsInit(r: Ruler, env: Env)
    requires env.utilConn.Some? || env.protoConn.Some?
    ensures var out := Init(r, env);
            |out.ran| <= 2 && out.err.Some? && MakeWindows !in out.ran
            && (env.utilConn.Some? ==> out.err == env.utilConn && out.ran == [ConnectUtil])
            && (env.utilConn.None? ==> out.err == env.protoConn && out.ran == [ConnectUtil, ConnectProtocol])
  {
  }

  /** A partially created window set is never used: a refused allocation
      ends initialisation after the window step with its error. */
  lemma WindowFailureStopsInit(r: Ruler, env: Env)
    requires env.utilConn.None? && env.protoConn.None?
    requires Modes.CreateWindows(r.mode, env.screenWidth, env.screenHeight, env.server).Failure?
    ensures var out := Init(r, env);
            out.ran == [ConnectUtil, ConnectProtocol, QueryScreen, MakeWindows]
            && out.err == Some(Modes.CreateWindows(r.mode, env.screenWidth, env.screenHeight, env.server).error)
  {
  }

  /** Without the XFIXES extension initialisation carries on: the windows
      stay clickable and the later steps still run. */
  lemma NoXfixesStillInitializes(r: Ruler, env: Env)
    requires env.utilConn.None? && env.protoConn.None? && env.atom.None? && env.keybind.None?
    requires env.xfixes.query == Success(false)
    requires forall i :: 0 <= i < Modes.WindowCount(r.mode) ==> env.server(i).Granted? && env.property(i).None?
    ensures var out := Init(r, env);
            out.err.None? && forall i :: 0 <= i < |out.ruler.windows| ==> !out.ruler.windows[i].clickThrough
  {
  }

  /** A fresh engine that initialises successfully is ready to run, with its
      windows mapped in step with its visibility. */
  lemma InitFromNewIsReady(mode: Modes.Mode, env: Env)
    ensures var out := Init(New(mode), env);
            out.err.None? ==> Ready(out.ruler) && out.ruler.visible && MappedMatchesVisible(out.ruler)
  {
  }
}

=== FILE: trail.dfy ===
/** The trail manager: a list of live trail segments plus the last sampled
    pointer position, with -1 meaning "no previous point". */
module Trail {
  import opened Base
  import opened Windows
  import opened Segments

  /** Lifetime of a segment: two seconds, in nanoseconds. */
  const Duration: int := 2 * 1_000_000_000
  /** Minimum movement, in pixels, before a new segment is drawn. */
  const MinDistance: int := 1
  /** Background pixel of a segment window; the shape mask hides it. */
  const Background: nat := 0xFF0000

  /** `protoConn` and `utilConn` say whether the manager holds the raw
      protocol connection and the utility-library connection. */
  datatype Manager = Manager(protoConn: bool, utilConn: bool, segments: seq<Segment>, lastX: int, lastY: int)

  /** Both connections are present: only then are segments drawn. */
  predicate Connected(m: Manager)
  {
    m.protoConn && m.utilConn
  }

  function NewManager(protoConn: bool, utilConn: bool): (m: Manager)
    ensures m.protoConn == protoConn && m.utilConn == utilConn && m.segments == []
    ensures GetLastPosition(m) == (-1, -1)
    ensures forall x, y :: !ShouldAdd(m, x, y)
  {
    Manager(protoConn, utilConn, [], -1, -1)
  }

  /** Whether a segment should be drawn to (x, y): the manager has a last
      point, and (x, y) is a different point. The test has no effect on the
      manager. */
  function ShouldAdd(m: Manager, x: int, y: int): (b: bool)
    ensures b <==> m.lastX != -1 && m.lastY != -1 && (x != m.lastX || y != m.lastY)
  {
    UnitThresholdMeansMoved(m.lastX, m.lastY, x, y);
    FarEnough(m.lastX, m.lastY, x, y, MinDistance)
  }

  /** Draws a segment stamped `now`; `alloc` is the display server's answer
      to its window allocation. The last position is not touched. */
  function Add(m: Manager, x1: int, y1: int, x2: int, y2: int, now: int, alloc: Alloc): (m': Manager)
    ensures m'.protoConn == m.protoConn && m'.utilConn == m.utilConn && m'.lastX == m.lastX && m'.lastY == m.lastY
    ensures !Connected(m) || !alloc.Granted? ==> m' == m
    ensures Connected(m) && alloc.Granted? ==>
              |m'.segments| == |m.segments| + 1 && m'.segments[..|m.segments|] == m.segments
              && Drawn(m'.segments[|m.segments|], x1, y1, x2, y2, now, Background)
  {
    m.(segments := AddSegment(m.segments, Connected(m), x1, y1, x2, y2, now, alloc, Background))
  }

  /** Advances the trail to `now`: every segment older than `Duration` is
      destroyed, the others stay in order. The sweep ends by flushing the
      protocol connection, so the manager must hold that one. */
  function Update(m: Manager, now: int): (m': Manager)
    requires m.protoConn
    ensures m'.protoConn == m.protoConn && m'.utilConn == m.utilConn && m'.lastX == m.lastX && m'.lastY == m.lastY
    // corollaries of the equality below, kept for the reader
    ensures forall s :: s in m'.segments ==> now - s.timestamp <= Duration
    ensures forall s :: s in m.segments ==> (s in m'.segments <==> now - s.timestamp <= Duration)
    // the survivors keep their order and nothing is added
    ensures m'.segments == Expire(m.segments, now, Duration)
  {
    m.(segments := Expire(m.segments, now, Duration))
  }

  /** Records (x, y) as the last sampled point; nothing else changes. */
  function UpdatePosition(m: Manager, x: int, y: int): (m': Manager)
    ensures m'.lastX == x && m'.lastY == y
    ensures m'.protoConn == m.protoConn && m'.utilConn == m.utilConn && m'.segments == m.segments
  {
    m.(lastX := x, lastY := y)
  }

  /** The last sampled point, (-1, -1) before any. */
  function GetLastPosition(m: Manager): (p: (int, int))
    ensures p.0 == m.lastX && p.1 == m.lastY
  {
    (m.lastX, m.lastY)
  }

  /** Recording a position and reading it back returns that position, and
      the segment list is unchanged. */
  lemma PositionRoundTrip(m: Manager, x: int, y: int)
    ensures GetLastPosition(UpdatePosition(m, x, y)) == (x, y)
    ensures UpdatePosition(m, x, y).segments == m.segments
  {
  }

  /** Once a position is recorded, staying put draws nothing and any move
      draws a segment. */
  lemma RecordedPositionEnablesTrail(m: Manager, x: int, y: int, x': int, y': int)
    requires x != -1 && y != -1
    ensures !ShouldAdd(UpdatePosition(m, x, y), x, y)
    ensures ShouldAdd(UpdatePosition(m, x, y), x', y') <==> (x', y') != (x, y)
  {
  }

  /** One sampling step as a caller drives it: draw if far enough, record the
      point, then expire. Afterwards no segment is older than `Duration`. */
  lemma SampleKeepsTrailFresh(m: Manager, x: int, y: int, now: int, alloc: Alloc)
    requires m.protoConn
    ensures var (lx, ly) := GetLastPosition(m);
            var drawn := if ShouldAdd(m, x, y) then Add(m, lx, ly, x, y, now, alloc) else m;
            var m' := Update(UpdatePosition(drawn, x, y), now);
            GetLastPosition(m') == (x, y) && forall s :: s in m'.segments ==> now - s.timestamp <= Duration
  {
  }
}

=== FILE: windows.dfy ===
/** Overlay windows as the engine sees them: a rectangle, a background
    colour and the handful of properties the engine sets on them. Window
    identifiers and the wire protocol stay with the display server, whose
    answers arrive as parameters. */
module Windows {
  import opened Base

  /** A window rectangle in root-window coordinates, as `ConfigureWindow`
      receives it. */
  datatype Rect = Rect(x: int, y: int, width: int, height: int)

  /** One overlay window: its geometry, background colour, whether it is
      mapped, whether its input shape is empty (click-through), and the
      opacity property set on it, if any. */
  datatype Window = Window(rect: Rect, background: nat, mapped: bool, clickThrough: bool, opacity: Option<real>)

  /** The arguments of one window creation request. */
  datatype WindowSpec = WindowSpec(rect: Rect, background: nat)

  /** The display server's answer to one window allocation: the identifier
      generation or the checked creation request may be refused. */
  datatype Alloc = Granted | GenerateFailed(err: XError) | CreateFailed(err: XError)

  function AllocError(a: Alloc): (e: Option<XError>)
    ensures e.None? <==> a.Granted?
  {
    match a
    case Granted => None
    case GenerateFailed(err) => Some(err)
    case CreateFailed(err) => Some(err)
  }

  /** A freshly created window, mapped once every window of its set exists. */
  function Created(spec: WindowSpec): Window
  {
    Window(spec.rect, spec.background, true, false, None)
  }

  /** The first index in `[i, n)` whose request `fail` refuses, or `n`. */
  function FirstFailureFrom(fail: nat -> Option<XError>, i: nat, n: nat): (k: nat)
    requires i <= n
    ensures i <= k <= n
    ensures forall j :: i <= j < k ==> fail(j).None?
    ensures k < n ==> fail(k).Some?
    decreases n - i
  {
    if i == n then n
    else if fail(i).Some? then i
    else FirstFailureFrom(fail, i + 1, n)
  }

  /** The first of `n` requests that is refused, or `n` when none is. */
  function FirstFailure(fail: nat -> Option<XError>, n: nat): (k: nat)
    ensures k <= n
    ensures forall j :: 0 <= j < k ==> fail(j).None?
    ensures k < n ==> fail(k).Some?
  {
    FirstFailureFrom(fail, 0, n)
  }

  /** The first window allocation, of `n`, that the display server refuses,
      or `n` when all are granted. */
  function FirstRefused(server: nat -> Alloc, n: nat): (k: nat)
    ensures k <= n
    ensures forall j :: 0 <= j < k ==> server(j).Granted?
    ensures k < n ==> !server(k).Granted?
  {
    var fail := (i: nat) => AllocError(server(i));
    var k := FirstFailure(fail, n);
    assert forall j :: 0 <= j < k ==> server(j).Granted? by {
      forall j | 0 <= j < k ensures server(j).Granted? {
        assert fail(j).None?;
      }
    }
    assert k < n ==> fail(k).Some?;
    k
  }

  /** Creates one window per spec, in order, asking the display server for
      the i-th allocation at step i. The first refusal aborts the whole set
      with that error; only a complete set is returned, every window mapped. */
  function CreateAll(specs: seq<WindowSpec>, server: nat -> Alloc): (r: Result<seq<Window>, XError>)
    ensures r.Success? <==> forall i :: 0 <= i < |specs| ==> server(i).Granted?
    ensures r.Success? ==> |r.value| == |specs|
    ensures r.Success? ==> forall i :: 0 <= i < |specs| ==> r.value[i] == Created(specs[i])
    ensures r.Failure? ==> AllocError(server(FirstRefused(server, |specs|))) == Some(r.error)
  {
    var k := FirstRefused(server, |specs|);
    if k < |specs| then
      Failure(AllocError(server(k)).value)
    else
      Success(seq(|specs|, i requires 0 <= i < |specs| => Created(specs[i])))
  }

  /** A per-window property request the engine issues during setup. */
  datatype WindowOp = MakeClickThrough | SetOpacity(percent: real)

  function Perform(w: Window, op: WindowOp): Window
  {
    match op
    case MakeClickThrough => w.(clickThrough := true)
    case SetOpacity(p) => w.(opacity := Some(p))
  }

  /** The windows after a request loop, and the error that ended it early. */
  datatype Applied = Applied(windows: seq<Window>, err: Option<XError>)

  /** Issues `op` on every window in order; `fail(i)` is the display
      server's answer to the request for window i. The loop returns at the
      first refused request, so later windows are left as they were. */
  function ApplyEach(ws: seq<Window>, op: WindowOp, fail: nat -> Option<XError>): (out: Applied)
    ensures |out.windows| == |ws|
    ensures out.err.None? <==> forall i :: 0 <= i < |ws| ==> fail(i).None?
    ensures out.err.None? ==> forall i :: 0 <= i < |ws| ==> out.windows[i] == Perform(ws[i], op)
    ensures out.err.Some? ==>
              exists k :: 0 <= k < |ws| && out.err == fail(k)
                          && (forall j :: 0 <= j < k ==> fail(j).None? && out.windows[j] == Perform(ws[j], op))
                          && (forall j :: k <= j < |ws| ==> out.windows[j] == ws[j])
  {
    var k := FirstFailure(fail, |ws|);
    var done := seq(|ws|, i requires 0 <= i < |ws| => if i < k then Perform(ws[i], op) else ws[i]);
    if k < |ws| then Applied(done, fail(k)) else Applied(done, None)
  }

  /** `b` is `a` with at most the rectangles changed: the same windows, in
      the same order, with the same colours and properties. */
  ghost predicate OnlyGeometryChanged(a: seq<Window>, b: seq<Window>)
  {
    |a| == |b| && forall i :: 0 <= i < |a| ==> b[i] == a[i].(rect := b[i].rect)
  }

  /** The rectangles of a window list, in order. */
  function Rects(ws: seq<Window>): (rs: seq<Rect>)
    ensures |rs| == |ws|
    ensures forall i :: 0 <= i < |ws| ==> rs[i] == ws[i].rect
  {
    seq(|ws|, i requires 0 <= i < |ws| => ws[i].rect)
  }
}
